=== FILE: README.md ===
# Docker swarm manager: resource policy, network registration and request validation

This project is a Dafny model of the decision logic in a management backend that sits in front of
a Docker swarm. The rest of the backend passes calls through to the Docker client library, so
the model covers these three parts:

- **Stack records** (`src/models/stack.ts`). A stack holds a map from service name to member
  service. Every member's `resources` block is overwritten with one fixed allocation:
  - limit: `"1.0"` CPU and `"2G"` memory;
  - reservation: `"0.25"` CPU and `"512M"` memory.

  The constructor stamps a new stack with version `"3.8"` and status `deploying`. The mutators
  are `updateServices` and `updateStatus`. `getStandardResourceLimits` gives the same allocation
  in the engine's integer units (nano-CPUs and bytes).
- **Network registration** (`src/services/networkService.ts`). `createNetworkIfNotExists`
  looks the name up and returns the first hit. If nothing matches, it builds a spec with
  defaults and creates one network. `getNetworkByName` returns the first hit or null.
  - The Docker daemon is a value: the ordered sequence of networks it knows.
  - The daemon's name filter is an abstract predicate `nameMatches(networkName, query)`,
    because Docker's filter is not an exact-equality test.
  - Daemon errors are a `Fault` parameter in both operations. It says which call fails: the
    list, the create or the inspect. `getNetworkByName` makes only the list call, so only a
    list fault affects it.
- **Request validation** (`src/controllers/stackController.ts`). The model covers how
  `getStackLogs`, `getStackServiceBulkLogs` and `scaleStackService` check and normalise their
  inputs. Each handler either rejects the request with status 400 (the stack manager is not
  called) or yields the exact call it makes on the manager.
  - Query parameters are `Option<string>`.
  - Body fields are JSON values (`JsValues.BodyValue`), with JavaScript truthiness.
  - `parseInt` and `Number` are concrete for `undefined`, `null`, booleans, integers and plain
    objects. For the text of a string or an array, they are an abstract function passed in by
    the caller, whose result is `Finite(n)` or `NaN`.

Modules: `Wrappers` (Option, Result), `JsValues` (JavaScript values and coercions),
`StackModel`, `NetworkService`, `StackController`.

Ids (`uuidv4()`), clock readings (`new Date()`) and daemon-assigned network ids are parameters.

## Model

| member | source | states |
|---|---|---|
| StackModel.EnforceResourceLimits | src/models/stack.ts:108-132 | the result has exactly the input's service names; every member carries the fixed 1.0/2G limit and 0.25/512M reservation; every other field of each member is carried over unchanged |
| StackModel.EnforceCharacterised | src/models/stack.ts:122-131 | those three properties determine the enforced map: any map that meets them equals it |
| StackModel.EnforceIdempotent | src/models/stack.ts:108-132 | enforcing an already-enforced map returns that same map |
| StackModel.EnforceFixedPoints | src/models/stack.ts:108-132 | enforcement leaves a map unchanged if and only if every member already carries the fixed allocation |
| StackModel.EnforceIgnoresSuppliedResources | src/models/stack.ts:124-128 | two inputs that differ only in their resource blocks enforce to the same map, so no caller-supplied resources survive |
| StackModel.NewStack | src/models/stack.ts:85-102 | a new stack has the given id and name, version 3.8 and status deploying; its members are the input's members under the fixed allocation; networks, volumes and env are kept as given; `createdAt` and `updatedAt` are the two clock readings taken at construction |
| StackModel.UpdateServices | src/models/stack.ts:134-137 | the member map is replaced by the enforced form of the argument and `updatedAt` is bumped; id, name, version, status, networks, volumes, env and `createdAt` do not change |
| StackModel.UpdateStatus | src/models/stack.ts:139-144 | only the status and `updatedAt` change; the services, id, name and stack-level sections stay the same |
| StackModel.MutationsPreserve | src/models/stack.ts:134-144 | for any sequence of `updateServices`/`updateStatus` calls on a stack that satisfies the policy, the policy still holds and id, name and version stay the same |
| StackModel.PolicyInvariant | src/models/stack.ts:92-144 | after construction and any sequence of mutations, every member carries the fixed allocation and id, name and version are the ones set at construction |
| StackModel.StandardEngineResources | src/models/stack.ts:149-160 | the engine limits are 1 CPU in nano-CPUs (10^9) and 2 GiB in bytes; the reservations are a quarter CPU and 512 MiB; each reservation is positive and at most its limit |
| NetworkService.BuildNetworkSpec | src/services/networkService.ts:25-34 | the spec carries the requested name; the driver is the caller's non-empty driver, otherwise overlay; attachable is always true; ingress and IPv6 are on only when the caller passes true; IPAM, options and labels are the caller's objects or empty |
| NetworkService.DefaultSpec | src/services/networkService.ts:25-34 | with no options, the spec is an attachable overlay network with ingress and IPv6 off and empty IPAM, options and labels |
| NetworkService.AttachableCannotBeDisabled | src/services/networkService.ts:28 | passing `attachable: false` gives the same spec as passing `attachable: true` |
| NetworkService.Lookup | src/services/networkService.ts:16-18 | the name lookup returns exactly the daemon's networks that the filter accepts, and no more networks than the daemon holds |
| NetworkService.LookupHeadIsFirstMatch | src/services/networkService.ts:20-21 | the first network of a non-empty lookup is the earliest accepted network in the daemon's order |
| NetworkService.LookupAppend | src/services/networkService.ts:16-18 | after a network is registered, a lookup returns the earlier hits followed by the new network when the filter accepts it |
| NetworkService.CreateNetworkIfNotExists | src/services/networkService.ts:10-41 | if the lookup finds a network, the first match is returned and the daemon is unchanged; if it finds none, exactly one network with the spec built from the options is added and its report is returned; a daemon failure is reported with the "Failed to create network: " prefix; the daemon grows by at most one network |
| NetworkService.CreateTwiceAddsAtMostOne | src/services/networkService.ts:15-40 | if the filter accepts a name as a query for itself, two registrations of that name add at most one network, whatever daemon faults either call meets; without faults the second call adds nothing and returns what the first returned; a retry after a failed inspect returns the network that the failed call had created |
| NetworkService.GetNetworkByName | src/services/networkService.ts:69-78 | the result is null if and only if no network matches, otherwise the earliest match; a daemon failure is reported with the "Failed to get network by name: " prefix |
| NetworkService.CreatedNetworkIsFound | src/services/networkService.ts:69-75 | after a successful registration, looking the name up returns the registered network |
| JsValues.NumberZeroIsFalsy | src/controllers/stackController.ts:152 | for null, booleans and integers, the number `replicas < 0` compares is never NaN, and it is 0 exactly when the value is falsy, so the two halves of the guard agree on these values |
| JsValues.WordsCompareButDoNotParse | src/controllers/stackController.ts:152-308 | null and booleans have a number under `Number`, which the `<` at line 152 uses, but parse as NaN under the `parseInt` of lines 304-308 |
| JsValues.ParseIntAgreesWithNumber | src/controllers/stackController.ts:304-308 | outside strings and arrays, `parseInt` yields a number only for an integer field; that number is the integer, and `Number` yields the same one |
| JsValues.MinWith | src/controllers/stackController.ts:304-308 | `Math.min(x, cap)` is NaN exactly when x is NaN; otherwise it is at most both x and cap, and equal to one of them |
| StackController.GetStackLogs | src/controllers/stackController.ts:204-246 | the request reaches the manager if and only if tail is omitted or at least 1 and replicaIndex is absent or at least 0; the tail error takes precedence; each option is set exactly when its parameter was supplied; timestamps is true exactly for the text "true" |
| StackController.ReplicaIndexZeroAccepted | src/controllers/stackController.ts:230-238 | replica index 0 is accepted and forwarded |
| StackController.EmptyQueryGivesNoOptions | src/controllers/stackController.ts:217-240 | a query with no options produces an options object with no keys |
| StackController.EmptyTailIgnored | src/controllers/stackController.ts:218-227 | an empty `tail` is falsy, so it is left out rather than rejected |
| StackController.GetStackServiceBulkLogs | src/controllers/stackController.ts:284-314 | the request is rejected with 400 if and only if `replicaIndexes` is truthy and not an array; each key is set exactly when its field is truthy (timestamps: when defined); a forwarded tail is `Math.min(parseInt(tail), 1000)` and a forwarded maxConcurrent is `Math.min(parseInt(maxConcurrent), 10)`, so neither exceeds its cap |
| StackController.BulkTailClamped | src/controllers/stackController.ts:304 | a non-zero numeric tail is forwarded as min(tail, 1000), whatever the other fields hold |
| StackController.BulkConcurrencyClamped | src/controllers/stackController.ts:307-308 | a non-zero numeric maxConcurrent is forwarded as min(maxConcurrent, 10), whatever the other fields hold |
| StackController.ConcurrencyTwentyBecomesTen | src/controllers/stackController.ts:307-308 | a request for 20 concurrent fetches forwards a bound of 10 |
| StackController.ScaleStackService | src/controllers/stackController.ts:146-164 | replicas is forwarded unchanged if and only if it is truthy and its number does not compare below 0; otherwise the response is 400; so a missing, null, false, zero or empty value is rejected, and a numeric value passes if and only if it is positive |
| StackController.ScaleAdmitsNonNumericText | src/controllers/stackController.ts:152 | a non-empty text that reads as NaN passes the guard, because `NaN < 0` is false |
| StackController.ScaleForwardsNonCounts | src/controllers/stackController.ts:152 | `true`, any plain object and an empty array pass the guard and are forwarded |

## Left out

- Stack deployment with rollback, replica indexing and batched bulk-log fetching are not
  modelled. `src/services/stackManager.ts` passes calls through to `DockerService`, and the
  manager methods the controller calls (`getStackLogs`, `getStackServiceBulkLogs`,
  `scaleStackService`, `getStackServiceReplicas`, `getStackServices`) are not defined in it.
  The model stops at the call the controller makes.
- `listNetworks`, `getNetwork` and `removeNetwork` in the network service, together with
  `src/services/dockerService.ts` and `src/services/serviceManager.ts`, are left out. They are
  thin wrappers over Docker client calls whose behaviour is not visible here.
- Response shaping and status codes after the manager returns are left out (HTTP plumbing).
  This covers the 404/500 mapping in `catch` blocks, the response bodies and the other
  controller handlers.
- The stack status is stored, but the status lifecycle is not checked. `updateStatus` accepts
  any of the five statuses, and nothing in `src/` constrains which transitions happen.
- Ids, clock readings and daemon-assigned network ids are parameters.
- Only integer JSON numbers are modelled. `parseInt` is not modelled on fractions or on
  integers of magnitude 10^21 and above, which print in exponent notation.
- Query parameters that are not plain text are not modelled: arrays from repeated keys and objects from bracketed keys such as `tail[a]=1`.
- The network options are typed: a driver is text and the flags are booleans. A JSON body of
  another shape can reach `createNetworkIfNotExists`, and that case is not modelled.
- `IPAM`, `Options` and `Labels` are maps from text to text. The source passes any object
  through unchanged.
- StackModel.NewStack: the constructor's default of an empty service map is not a default
  parameter; callers pass `map[]`.
- StackModel.EnforceResourceLimits: two JavaScript object behaviours are not modelled. First,
  a service named `__proto__` is stored through the prototype setter and drops out of the
  result, so "exactly the input's service names" fails for that one key. Second, every
  member's `resources` is the same shared object and `services` is a public field. A direct
  write through one member's resources therefore changes all members, bypassing both mutators.
  StackModel.PolicyInvariant covers only changes made through the two mutators.
- JsValues.ToNumber: a body object with its own `toString` key makes the conversion throw a
  TypeError. `scaleStackService` then answers 400 from its catch block. The model reads the
  object as NaN and forwards it.
- JsValues.ParseInt: the same `toString` object makes `parseInt` throw in the bulk-logs
  handler, which then answers 500. The model reads the object as NaN and forwards it.
- StackModel.StandardEngineResources: `"1.0"`, `"0.25"`, `"2G"` and `"512M"` stay opaque
  text. The agreement between that text and the integer units is stated through the unit
  constants, not by parsing the text.
- NetworkService.CreateNetworkIfNotExists: a reported network is modelled as the
  daemon-assigned id plus the requested spec. The daemon's own additions to its report are not
  modelled: the IPAM driver and subnets, the scope and the creation time. The list call and
  the inspect call are assumed to report the same record, whereas the Docker Engine API
  documents the list entry as a smaller form. CreateTwiceAddsAtMostOne and
  CreatedNetworkIsFound compare networks under this same assumption.
- NetworkService.CreateNetworkIfNotExists: the daemon's concurrency is not modelled. Two
  interleaved calls can both see an empty lookup and both create a network.
- NetworkService.Lookup: the daemon is assumed to list networks in one fixed order, and the
  filter is any name predicate.

=== FILE: js_values.dfy ===
/** The JavaScript values a request body can carry and the coercions the
    controllers apply to them: truthiness, `Number(v)` (used by `<`) and
    `parseInt(v)`. Conversions whose result depends on the text of a string or
    of an array are supplied by the caller as an abstract function. */
module JsValues {

  /** A field of a JSON request body; `Missing` is a key that is not present
      (JavaScript's `undefined`). */
  datatype BodyValue =
    | Missing
    | Null
    | Bool(b: bool)
    | Num(n: int)
    | Str(s: string)
    | Arr(items: seq<BodyValue>)
    | Obj(fields: map<string, BodyValue>)

  /** A JavaScript number as the controllers see it: an integer or NaN. */
  datatype JsNumber = Finite(value: int) | NaN

  /** JavaScript truthiness of a body field. */
  predicate Truthy(v: BodyValue) {
    match v
    case Missing => false
    case Null => false
    case Bool(b) => b
    case Num(n) => n != 0
    case Str(s) => s != ""
    case Arr(_) => true
    case Obj(_) => true
  }

  /** Strings and arrays are the values whose numeric reading depends on
      their text; every other kind converts the same way whatever it holds. */
  predicate Textual(v: BodyValue) {
    v.Str? || v.Arr?
  }

  /** `Number(v)`, the conversion `v < 0` applies to a body field.
      `textToNumber` reads the text of a string or an array. */
  function ToNumber(v: BodyValue, textToNumber: BodyValue -> JsNumber): JsNumber {
    match v
    case Missing => NaN
    case Null => Finite(0)
    case Bool(b) => Finite(if b then 1 else 0)
    case Num(n) => Finite(n)
    case Obj(_) => NaN
    case _ => textToNumber(v)
  }

  /** `parseInt(v)`, which reads the string form of `v`: `undefined`, `null`,
      booleans and plain objects print as words and parse to NaN, an integer
      prints as itself. `parseText` reads a string or an array. */
  function ParseInt(v: BodyValue, parseText: BodyValue -> JsNumber): JsNumber {
    match v
    case Num(n) => Finite(n)
    case Str(_) => parseText(v)
    case Arr(_) => parseText(v)
    case _ => NaN
  }

  /** For the values whose number does not depend on their text and is not
      NaN (`null`, booleans, integers), `Number` reads as 0 exactly the
      falsy ones. */
  lemma NumberZeroIsFalsy(v: BodyValue, textToNumber: BodyValue -> JsNumber)
    requires !Textual(v) && !v.Missing? && !v.Obj?
    ensures ToNumber(v, textToNumber).Finite?
    ensures Truthy(v) <==> ToNumber(v, textToNumber) != Finite(0)
  {
  }

  /** `null` and booleans have a number under `Number` but none under
      `parseInt`, which reads their printed words; this is why `null < 0` is
      a comparison with 0 while `parseInt(null)` is NaN. */
  lemma WordsCompareButDoNotParse(v: BodyValue, textToNumber: BodyValue -> JsNumber, parseText: BodyValue -> JsNumber)
    requires v.Null? || v.Bool?
    ensures ParseInt(v, parseText) == NaN
    ensures ToNumber(v, textToNumber).Finite?
  {
  }

  /** Outside strings and arrays, whenever `parseInt` yields a number,
      `Number` yields the same one, and it is the value of an integer field:
      the two conversions agree on every value both can read. */
  lemma ParseIntAgreesWithNumber(v: BodyValue, textToNumber: BodyValue -> JsNumber, parseText: BodyValue -> JsNumber)
    requires !Textual(v)
    ensures ParseInt(v, parseText).Finite? ==> v.Num? && ToNumber(v, textToNumber) == ParseInt(v, parseText) == Finite(v.n)
    ensures v.Num? ==> ParseInt(v, parseText).Finite?
  {
  }

  /** `Math.min(x, cap)`: NaN if `x` is NaN, otherwise the smaller integer. */
  function MinWith(x: JsNumber, cap: int): (r: JsNumber)
    ensures r.Finite? <==> x.Finite?
    ensures r.Finite? ==> r.value <= cap && r.value <= x.value
    ensures r.Finite? ==> (r.value == cap || r.value == x.value)
  {
    match x
    case NaN => NaN
    case Finite(n) => Finite(if n < cap then n else cap)
  }

  /** `x < bound` on JavaScript numbers: every comparison with NaN is false. */
  predicate LessThan(x: JsNumber, bound: int) {
    x.Finite? && x.value < bound
  }
}

=== FILE: network_service.dfy ===
/** Create-if-absent network registration from
    src/services/networkService.ts. The Docker daemon is a value: the ordered
    sequence of networks it knows. Its name filter is an abstract predicate
    `nameMatches(networkName, query)`, since the daemon's filter is not an
    exact-equality test. */
module NetworkService {
  import opened Wrappers

  /** The caller's `options` object; each field may be absent. A missing
      `options` argument is NoOptions. */
  datatype NetworkOptions = NetworkOptions(
    driver: Option<string>,
    attachable: Option<bool>,
    ingress: Option<bool>,
    ipam: Option<map<string, string>>,
    enableIPv6: Option<bool>,
    options: Option<map<string, string>>,
    labels: Option<map<string, string>>)

  const NoOptions: NetworkOptions := NetworkOptions(None, None, None, None, None, None, None)

  /** The create request sent to the daemon. */
  datatype NetworkSpec = NetworkSpec(
    name: string,
    driver: string,
    attachable: bool,
    ingress: bool,
    ipam: map<string, string>,
    enableIPv6: bool,
    options: map<string, string>,
    labels: map<string, string>)

  /** A registered network: the id the daemon assigned and the spec it was
      created from. The daemon's own report of a network (list entry or
      inspect result) is taken to be this record. */
  datatype Network = Network(id: string, spec: NetworkSpec)

  const DefaultDriver: string := "overlay"
  const CreateErrorPrefix: string := "Failed to create network: "
  const LookupErrorPrefix: string := "Failed to get network by name: "

  /** Which daemon call, if any, raises an error during one request. */
  datatype Fault = NoFault | ListFails(message: string) | CreateFails(message: string) | InspectFails(message: string)

  /** `text || fallback` for an optional string field. */
  function TextOr(o: Option<string>, fallback: string): string {
    if o.Some? && o.value != "" then o.value else fallback
  }

  /** `flag || false` for an optional boolean field. */
  function FlagOrFalse(o: Option<bool>): bool {
    o == Some(true)
  }

  /** `object || {}`: a present object is always truthy. */
  function ObjectOrEmpty(o: Option<map<string, string>>): map<string, string> {
    o.GetOr(map[])
  }

  /** The spec `createNetworkIfNotExists` builds from its options. The
      attachable flag is `attachable || true`, so it is true whatever the
      caller asked for. */
  function BuildNetworkSpec(networkName: string, o: NetworkOptions): (spec: NetworkSpec)
    ensures spec.name == networkName
    ensures spec.attachable
    ensures o.driver.Some? && o.driver.value != "" ==> spec.driver == o.driver.value
    ensures o.driver.None? || o.driver == Some("") ==> spec.driver == DefaultDriver
    ensures spec.ingress <==> o.ingress == Some(true)
    ensures spec.enableIPv6 <==> o.enableIPv6 == Some(true)
    ensures o.ipam.Some? ==> spec.ipam == o.ipam.value
    ensures o.options.Some? ==> spec.options == o.options.value
    ensures o.labels.Some? ==> spec.labels == o.labels.value
    ensures o.ipam.None? ==> spec.ipam == map[]
    ensures o.options.None? ==> spec.options == map[]
    ensures o.labels.None? ==> spec.labels == map[]
  {
    NetworkSpec(
      networkName,
      TextOr(o.driver, DefaultDriver),
      FlagOrFalse(o.attachable) || true,
      FlagOrFalse(o.ingress),
      ObjectOrEmpty(o.ipam),
      FlagOrFalse(o.enableIPv6),
      ObjectOrEmpty(o.options),
      ObjectOrEmpty(o.labels))
  }

  /** With no options the spec is an attachable overlay network with every
      other setting off or empty. */
  lemma DefaultSpec(networkName: string)
    ensures BuildNetworkSpec(networkName, NoOptions)
         == NetworkSpec(networkName, DefaultDriver, true, false, map[], false, map[], map[])
  {
  }

  /** Asking for a non-attachable network still yields an attachable one. */
  lemma AttachableCannotBeDisabled(networkName: string, o: NetworkOptions)
    requires o.attachable == Some(false)
    ensures BuildNetworkSpec(networkName, o).attachable
    ensures BuildNetworkSpec(networkName, o) == BuildNetworkSpec(networkName, o.(attachable := Some(true)))
  {
  }

  /** `listNetworks({filters: {name: [query]}})`: the daemon's networks whose
      name the filter accepts, in the daemon's order. */
  function Lookup(networks: seq<Network>, query: string, nameMatches: (string, string) -> bool): (r: seq<Network>)
    ensures |r| <= |networks|
    ensures forall n :: n in r ==> n in networks && nameMatches(n.spec.name, query)
    ensures forall i :: 0 <= i < |networks| && nameMatches(networks[i].spec.name, query) ==> networks[i] in r
    decreases |networks|
  {
    if |networks| == 0 then []
    else
      var rest := Lookup(networks[1..], query, nameMatches);
      if nameMatches(networks[0].spec.name, query) then [networks[0]] + rest else rest
  }

  /** `n` is the earliest network of the daemon that the filter accepts. */
  predicate FirstMatch(networks: seq<Network>, query: string, nameMatches: (string, string) -> bool, n: Network) {
    exists i :: 0 <= i < |networks| && networks[i] == n && nameMatches(n.spec.name, query)
      && forall j :: 0 <= j < i ==> !nameMatches(networks[j].spec.name, query)
  }

  /** The head of a non-empty lookup is the earliest matching network. */
  lemma {:induction false} LookupHeadIsFirstMatch(networks: seq<Network>, query: string, nameMatches: (string, string) -> bool)
    requires |Lookup(networks, query, nameMatches)| > 0
    ensures FirstMatch(networks, query, nameMatches, Lookup(networks, query, nameMatches)[0])
    decreases |networks|
  {
    var r := Lookup(networks, query, nameMatches);
    if nameMatches(networks[0].spec.name, query) {
      assert r[0] == networks[0];
    } else {
      var tail := networks[1..];
      assert r == Lookup(tail, query, nameMatches);
      LookupHeadIsFirstMatch(tail, query, nameMatches);
      var i :| 0 <= i < |tail| && tail[i] == r[0] && nameMatches(r[0].spec.name, query)
        && forall j :: 0 <= j < i ==> !nameMatches(tail[j].spec.name, query);
      assert networks[i + 1] == r[0];
      forall j | 0 <= j < i + 1
        ensures !nameMatches(networks[j].spec.name, query)
      {
        if j > 0 {
          assert networks[j] == tail[j - 1];
        }
      }
    }
  }

  /** Registering a network extends the lookup of any query at its end. */
  lemma {:induction false} LookupAppend(networks: seq<Network>, n: Network, query: string, nameMatches: (string, string) -> bool)
    ensures Lookup(networks + [n], query, nameMatches)
         == Lookup(networks, query, nameMatches) + (if nameMatches(n.spec.name, query) then [n] else [])
    decreases |networks|
  {
    if |networks| > 0 {
      assert (networks + [n])[1..] == networks[1..] + [n];
      LookupAppend(networks[1..], n, query, nameMatches);
    }
  }

  /** The daemon after a request, and what the request returned. */
  datatype Outcome = Outcome(networks: seq<Network>, result: Result<Network, string>)

  /** `createNetworkIfNotExists`: if the lookup by name finds anything, the
      first hit is returned and nothing is created; otherwise one network is
      created from BuildNetworkSpec and returned. Any daemon error is rethrown
      with the "Failed to create network: " prefix. The new network's id is
      chosen by the daemon and arrives as `newId`. */
  function CreateNetworkIfNotExists(
    networks: seq<Network>,
    fault: Fault,
    networkName: string,
    o: NetworkOptions,
    newId: string,
    nameMatches: (string, string) -> bool): (out: Outcome)
    ensures fault.ListFails? ==> out == Outcome(networks, Failure(CreateErrorPrefix + fault.message))
    ensures !fault.ListFails? && |Lookup(networks, networkName, nameMatches)| > 0 ==>
      && out.networks == networks
      && out.result.Success?
      && FirstMatch(networks, networkName, nameMatches, out.result.value)
    ensures !fault.ListFails? && |Lookup(networks, networkName, nameMatches)| == 0 ==>
      && (forall n :: n in networks ==> !nameMatches(n.spec.name, networkName))
      && (if fault.CreateFails? then out.networks == networks
          else out.networks == networks + [Network(newId, BuildNetworkSpec(networkName, o))])
      && (if fault.NoFault? then out.result == Success(Network(newId, BuildNetworkSpec(networkName, o)))
          else out.result == Failure(CreateErrorPrefix + fault.message))
    ensures out.result.Success? ==> out.result.value in out.networks
    ensures |networks| <= |out.networks| <= |networks| + 1
  {
    match fault
    case ListFails(m) => Outcome(networks, Failure(CreateErrorPrefix + m))
    case _ =>
      var found := Lookup(networks, networkName, nameMatches);
      if |found| > 0 then
        LookupHeadIsFirstMatch(networks, networkName, nameMatches);
        Outcome(networks, Success(found[0]))
      else
        var created := Network(newId, BuildNetworkSpec(networkName, o));
        match fault
        case CreateFails(m) => Outcome(networks, Failure(CreateErrorPrefix + m))
        case InspectFails(m) => Outcome(networks + [created], Failure(CreateErrorPrefix + m))
        case _ => Outcome(networks + [created], Success(created))
  }

  /** Registering the same name twice creates at most one network, provided
      the daemon's filter accepts a network's own name. This holds whatever
      either call runs into, including a retry after a first call whose
      inspect failed once the network was already created. When neither call
      meets a fault, the second returns the network the first one returned;
      a retry after a failed inspect returns the network created then. */
  lemma CreateTwiceAddsAtMostOne(
    networks: seq<Network>,
    networkName: string,
    o1: NetworkOptions, o2: NetworkOptions,
    id1: string, id2: string,
    f1: Fault, f2: Fault,
    nameMatches: (string, string) -> bool)
    requires nameMatches(networkName, networkName)
    ensures
      var first := CreateNetworkIfNotExists(networks, f1, networkName, o1, id1, nameMatches);
      var second := CreateNetworkIfNotExists(first.networks, f2, networkName, o2, id2, nameMatches);
      && |second.networks| <= |networks| + 1
      && (f1 == NoFault && f2 == NoFault ==> second.networks == first.networks && second.result == first.result)
      && (f1.InspectFails? && f2 == NoFault && |Lookup(networks, networkName, nameMatches)| == 0 ==>
            second.networks == first.networks
            && second.result == Success(Network(id1, BuildNetworkSpec(networkName, o1))))
  {
  }

  /** `getNetworkByName`: the first network the lookup returns, or null when
      it returns none. Only the list call can fail here; a create or inspect
      fault concerns calls this operation never makes. */
  function GetNetworkByName(
    networks: seq<Network>,
    fault: Fault,
    networkName: string,
    nameMatches: (string, string) -> bool): (r: Result<Option<Network>, string>)
    ensures fault.ListFails? ==> r == Failure(LookupErrorPrefix + fault.message)
    ensures !fault.ListFails? ==> r.Success?
    ensures r.Success? ==>
      (r.value.None? <==> forall n :: n in networks ==> !nameMatches(n.spec.name, networkName))
    ensures r.Success? && r.value.Some? ==> FirstMatch(networks, networkName, nameMatches, r.value.value)
  {
    if fault.ListFails? then Failure(LookupErrorPrefix + fault.message)
    else
      var found := Lookup(networks, networkName, nameMatches);
      if |found| > 0 then
        LookupHeadIsFirstMatch(networks, networkName, nameMatches);
        Success(Some(found[0]))
      else Success(None)
  }

  /** After a network is registered under a name, looking that name up finds
      the network the registration returned. */
  lemma CreatedNetworkIsFound(
    networks: seq<Network>,
    networkName: string,
    o: NetworkOptions,
    newId: string,
    nameMatches: (string, string) -> bool)
    requires nameMatches(networkName, networkName)
    ensures
      var out := CreateNetworkIfNotExists(networks, NoFault, networkName, o, newId, nameMatches);
      GetNetworkByName(out.networks, NoFault, networkName, nameMatches) == Success(Some(out.result.value))
  {
  }
}

=== FILE: stack.dfy ===
/** The stack record of src/models/stack.ts: a named set of member services
    whose resource blocks are always overwritten with the platform's fixed
    allocation, plus the engine-unit form of that allocation. */
module StackModel {
  import opened Wrappers

  /** One side (limit or reservation) of a compose-style resource block. */
  datatype ResourceSpec = ResourceSpec(cpus: string, memory: string)

  /** The `resources` block of a stack member service. */
  datatype Resources = Resources(limits: ResourceSpec, reservations: ResourceSpec)

  datatype Port = Port(target: int, published: int, protocol: Option<string>)

  datatype UpdateOrder = StopFirst | StartFirst

  datatype FailureAction = Pause | Continue | Rollback

  datatype UpdateConfig = UpdateConfig(
    parallelism: Option<int>,
    delay: Option<string>,
    order: Option<UpdateOrder>,
    failureAction: Option<FailureAction>)

  datatype Placement = Placement(constraints: Option<seq<string>>)

  datatype Deploy = Deploy(
    replicas: Option<int>,
    updateConfig: Option<UpdateConfig>,
    placement: Option<Placement>)

  /** A member service of a stack, as callers supply it. */
  datatype StackService = StackService(
    name: string,
    image: string,
    replicas: Option<int>,
    ports: Option<seq<Port>>,
    environment: Option<seq<string>>,
    networks: Option<seq<string>>,
    volumes: Option<seq<string>>,
    labels: Option<map<string, string>>,
    deploy: Option<Deploy>,
    resources: Resources)

  datatype StackNetwork = StackNetwork(
    name: string,
    driver: Option<string>,
    external: Option<bool>,
    attachable: Option<bool>)

  datatype StackVolume = StackVolume(name: string, driver: Option<string>, external: Option<bool>)

  datatype Status = Deploying | Running | Updating | Error | Stopped

  /** A clock reading; the model never inspects it. */
  type Timestamp = int

  datatype Stack = Stack(
    id: string,
    name: string,
    version: string,
    services: map<string, StackService>,
    networks: Option<map<string, StackNetwork>>,
    volumes: Option<map<string, StackVolume>>,
    env: Option<map<string, string>>,
    createdAt: Timestamp,
    updatedAt: Timestamp,
    status: Status)

  /** The fixed allocation: 1 CPU / 2G limit, 0.25 CPU / 512M reservation. */
  const StandardResources: Resources :=
    Resources(ResourceSpec("1.0", "2G"), ResourceSpec("0.25", "512M"))

  /** The compose file format version every stack is stamped with. */
  const ComposeVersion: string := "3.8"

  /** `a` and `b` agree on every field of a member service except `resources`. */
  predicate SameBesidesResources(a: StackService, b: StackService) {
    && a.name == b.name
    && a.image == b.image
    && a.replicas == b.replicas
    && a.ports == b.ports
    && a.environment == b.environment
    && a.networks == b.networks
    && a.volumes == b.volumes
    && a.labels == b.labels
    && a.deploy == b.deploy
  }

  /** Every member service carries exactly the fixed allocation. */
  predicate PolicyHolds(services: map<string, StackService>) {
    forall name :: name in services ==> services[name].resources == StandardResources
  }

  /** Overrides the resource block of every member service with the fixed
      allocation and keeps everything else. */
  function EnforceResourceLimits(services: map<string, StackService>): (r: map<string, StackService>)
    ensures r.Keys == services.Keys
    ensures PolicyHolds(r)
    ensures forall name :: name in services ==> SameBesidesResources(services[name], r[name])
  {
    map name | name in services :: services[name].(resources := StandardResources)
  }

  /** The three properties EnforceResourceLimits promises pin its result down:
      any map with the input's keys, the fixed allocation everywhere and every
      other field carried over is the enforced map. */
  lemma EnforceCharacterised(services: map<string, StackService>, out: map<string, StackService>)
    requires out.Keys == services.Keys
    requires PolicyHolds(out)
    requires forall name :: name in services ==> SameBesidesResources(services[name], out[name])
    ensures out == EnforceResourceLimits(services)
  {
  }

  /** Enforcing twice is enforcing once. */
  lemma EnforceIdempotent(services: map<string, StackService>)
    ensures EnforceResourceLimits(EnforceResourceLimits(services)) == EnforceResourceLimits(services)
  {
  }

  /** A map is left unchanged by enforcement exactly when it already
      satisfies the policy. */
  lemma EnforceFixedPoints(services: map<string, StackService>)
    ensures EnforceResourceLimits(services) == services <==> PolicyHolds(services)
  {
  }

  /** Whatever resources the caller supplied have no influence on the result:
      two inputs that differ only in resource blocks enforce to the same map. */
  lemma EnforceIgnoresSuppliedResources(a: map<string, StackService>, b: map<string, StackService>)
    requires a.Keys == b.Keys
    requires forall name :: name in a ==> SameBesidesResources(a[name], b[name])
    ensures EnforceResourceLimits(a) == EnforceResourceLimits(b)
  {
  }

  /** The `StackModel` constructor: a fresh stack in status `deploying`,
      stamped with version 3.8, whose members carry the fixed allocation.
      `createdAt` and `updatedAt` are two separate clock readings. */
  function NewStack(
    id: string,
    created: Timestamp,
    updated: Timestamp,
    name: string,
    services: map<string, StackService>,
    networks: Option<map<string, StackNetwork>>,
    volumes: Option<map<string, StackVolume>>,
    env: Option<map<string, string>>): (s: Stack)
    ensures s.id == id && s.name == name
    ensures s.version == ComposeVersion
    ensures s.status == Deploying
    ensures s.services.Keys == services.Keys
    ensures PolicyHolds(s.services)
    ensures forall m :: m in services ==> SameBesidesResources(services[m], s.services[m])
    ensures s.networks == networks && s.volumes == volumes && s.env == env
    ensures s.createdAt == created && s.updatedAt == updated
  {
    Stack(id, name, ComposeVersion, EnforceResourceLimits(services), networks, volumes, env, created, updated, Deploying)
  }

  /** `updateServices`: replaces the member map wholesale by the enforced form
      of the argument and bumps `updatedAt`; identity, status and the
      stack-level sections are untouched. */
  function UpdateServices(s: Stack, services: map<string, StackService>, now: Timestamp): (r: Stack)
    ensures r.services.Keys == services.Keys
    ensures PolicyHolds(r.services)
    ensures forall m :: m in services ==> SameBesidesResources(services[m], r.services[m])
    ensures r.updatedAt == now
    ensures r.id == s.id && r.name == s.name && r.version == s.version && r.status == s.status
    ensures r.networks == s.networks && r.volumes == s.volumes && r.env == s.env
    ensures r.createdAt == s.createdAt
  {
    s.(services := EnforceResourceLimits(services), updatedAt := now)
  }

  /** `updateStatus`: sets the status and bumps `updatedAt`, nothing else. */
  function UpdateStatus(s: Stack, status: Status, now: Timestamp): (r: Stack)
    ensures r.status == status && r.updatedAt == now
    ensures r.services == s.services
    ensures r.id == s.id && r.name == s.name && r.version == s.version
    ensures r.networks == s.networks && r.volumes == s.volumes && r.env == s.env
    ensures r.createdAt == s.createdAt
  {
    s.(status := status, updatedAt := now)
  }

  /** The two mutators a `StackModel` exposes, as values. */
  datatype Mutation =
    | SetServices(services: map<string, StackService>, at: Timestamp)
    | SetStatus(status: Status, at: Timestamp)

  function Apply(s: Stack, m: Mutation): Stack {
    match m
    case SetServices(services, at) => UpdateServices(s, services, at)
    case SetStatus(status, at) => UpdateStatus(s, status, at)
  }

  function ApplyAll(s: Stack, ms: seq<Mutation>): Stack
    decreases |ms|
  {
    if |ms| == 0 then s else ApplyAll(Apply(s, ms[0]), ms[1..])
  }

  /** No sequence of mutations can produce a member service whose resources
      differ from the fixed allocation, nor change the stack's identity. */
  lemma {:induction false} PolicyInvariant(
    id: string, created: Timestamp, updated: Timestamp, name: string,
    services: map<string, StackService>,
    networks: Option<map<string, StackNetwork>>,
    volumes: Option<map<string, StackVolume>>,
    env: Option<map<string, string>>,
    ms: seq<Mutation>)
    ensures PolicyHolds(ApplyAll(NewStack(id, created, updated, name, services, networks, volumes, env), ms).services)
    ensures ApplyAll(NewStack(id, created, updated, name, services, networks, volumes, env), ms).id == id
    ensures ApplyAll(NewStack(id, created, updated, name, services, networks, volumes, env), ms).name == name
    ensures ApplyAll(NewStack(id, created, updated, name, services, networks, volumes, env), ms).version == ComposeVersion
  {
    MutationsPreserve(NewStack(id, created, updated, name, services, networks, volumes, env), ms);
  }

  lemma {:induction false} MutationsPreserve(s: Stack, ms: seq<Mutation>)
    requires PolicyHolds(s.services)
    ensures PolicyHolds(ApplyAll(s, ms).services)
    ensures ApplyAll(s, ms).id == s.id && ApplyAll(s, ms).name == s.name
    ensures ApplyAll(s, ms).version == s.version
    decreases |ms|
  {
    if |ms| > 0 {
      MutationsPreserve(Apply(s, ms[0]), ms[1..]);
    }
  }

  /** A resource block in the engine's integer units. */
  datatype EngineAllocation = EngineAllocation(nanoCpus: int, memoryBytes: int)

  datatype EngineResources = EngineResources(limits: EngineAllocation, reservations: EngineAllocation)

  const NanoCpusPerCpu: int := 1_000_000_000
  const MiB: int := 1024 * 1024
  const GiB: int := 1024 * MiB

  /** `getStandardResourceLimits`: the fixed allocation in nano-CPUs and
      bytes, the same policy as StandardResources (1 CPU / 2 GiB limit,
      a quarter CPU / 512 MiB reservation). */
  function StandardEngineResources(): (r: EngineResources)
    ensures r.limits.nanoCpus == 1 * NanoCpusPerCpu
    ensures 4 * r.reservations.nanoCpus == NanoCpusPerCpu
    ensures r.limits.memoryBytes == 2 * GiB
    ensures r.reservations.memoryBytes == 512 * MiB
    ensures 0 < r.reservations.nanoCpus <= r.limits.nanoCpus
    ensures 0 < r.reservations.memoryBytes <= r.limits.memoryBytes
  {
    EngineResources(
      EngineAllocation(1000000000, 2147483648),
      EngineAllocation(250000000, 536870912))
  }
}

=== FILE: stack_controller.dfy ===
/** Request-option validation in src/controllers/stackController.ts: what the
    stack controller checks, normalises or rejects before it hands a request
    to the stack manager. A handler either rejects the request with a 400
    status (the manager is never called) or produces the call it makes on the
    manager. */
module StackController {
  import opened Wrappers
  import opened JsValues

  /** A response sent without calling the manager. */
  datatype Rejection = Rejection(status: int, message: string)

  const BadRequest: int := 400
  const TailMessage: string := "tail must be a positive number"
  const ReplicaIndexMessage: string := "replicaIndex must be a non-negative number"
  const ReplicaIndexesMessage: string := "replicaIndexes must be an array of numbers"
  const ReplicasMessage: string := "Valid replicas count is required"

  // ---------------------------------------------------------------------
  // GET /api/stacks/:name/logs

  /** The query string of a stack-logs request; each parameter is absent or
      given as text. */
  datatype LogQuery = LogQuery(
    service: Option<string>,
    tail: Option<string>,
    since: Option<string>,
    timestamps: Option<string>,
    replicaIndex: Option<string>,
    taskId: Option<string>)

  /** The options object handed to the manager; a field is present exactly
      when the handler set that key. */
  datatype LogOptions = LogOptions(
    tail: Option<int>,
    since: Option<string>,
    timestamps: Option<bool>,
    replicaIndex: Option<int>,
    taskId: Option<string>)

  /** `stackManager.getStackLogs(stackName, serviceName, options)`. */
  datatype LogsCall = LogsCall(stackName: string, serviceName: Option<string>, options: LogOptions)

  /** Truthiness of a query parameter: present and non-empty. */
  predicate Given(p: Option<string>) {
    p.Some? && p.value != ""
  }

  /** A parsed integer that is at least `least`; NaN never is. */
  predicate AtLeast(x: JsNumber, least: int) {
    x.Finite? && x.value >= least
  }

  /** The `tail` parameter is acceptable: not given, or a number of at least 1. */
  predicate TailAcceptable(q: LogQuery, parseText: string -> JsNumber) {
    Given(q.tail) ==> AtLeast(parseText(q.tail.value), 1)
  }

  /** The `replicaIndex` parameter is acceptable: absent, or a number of at least 0. */
  predicate ReplicaIndexAcceptable(q: LogQuery, parseText: string -> JsNumber) {
    q.replicaIndex.Some? ==> AtLeast(parseText(q.replicaIndex.value), 0)
  }

  /** `getStackLogs`: builds the options object from the query, rejecting a
      given `tail` that is not a positive number and a present `replicaIndex`
      that is not a non-negative number. The tail check comes first.
      `parseText` is `parseInt` on query text. */
  function GetStackLogs(stackName: string, q: LogQuery, parseText: string -> JsNumber): (r: Result<LogsCall, Rejection>)
    ensures r.Success? <==> TailAcceptable(q, parseText) && ReplicaIndexAcceptable(q, parseText)
    ensures !TailAcceptable(q, parseText) ==> r == Failure(Rejection(BadRequest, TailMessage))
    ensures TailAcceptable(q, parseText) && !ReplicaIndexAcceptable(q, parseText) ==>
      r == Failure(Rejection(BadRequest, ReplicaIndexMessage))
    ensures r.Success? ==> r.value.stackName == stackName && r.value.serviceName == q.service
    ensures r.Success? ==>
      var opts := r.value.options;
      && (opts.tail.Some? <==> Given(q.tail))
      && (opts.tail.Some? ==> opts.tail.value >= 1 && parseText(q.tail.value) == Finite(opts.tail.value))
      && (opts.since.Some? <==> Given(q.since))
      && (opts.since.Some? ==> opts.since == q.since)
      && (opts.timestamps.Some? <==> q.timestamps.Some?)
      && (opts.timestamps.Some? ==> (opts.timestamps.value <==> q.timestamps.value == "true"))
      && (opts.replicaIndex.Some? <==> q.replicaIndex.Some?)
      && (opts.replicaIndex.Some? ==>
            opts.replicaIndex.value >= 0 && parseText(q.replicaIndex.value) == Finite(opts.replicaIndex.value))
      && (opts.taskId.Some? <==> Given(q.taskId))
      && (opts.taskId.Some? ==> opts.taskId == q.taskId)
  {
    if Given(q.tail) && !AtLeast(parseText(q.tail.value), 1) then
      Failure(Rejection(BadRequest, TailMessage))
    else if q.replicaIndex.Some? && !AtLeast(parseText(q.replicaIndex.value), 0) then
      Failure(Rejection(BadRequest, ReplicaIndexMessage))
    else
      var options := LogOptions(
        if Given(q.tail) then Some(parseText(q.tail.value).value) else None,
        if Given(q.since) then q.since else None,
        if q.timestamps.Some? then Some(q.timestamps.value == "true") else None,
        if q.replicaIndex.Some? then Some(parseText(q.replicaIndex.value).value) else None,
        if Given(q.taskId) then q.taskId else None);
      Success(LogsCall(stackName, q.service, options))
  }

  /** Replica index 0 is accepted and forwarded as such. */
  lemma ReplicaIndexZeroAccepted(stackName: string, q: LogQuery, parseText: string -> JsNumber)
    requires TailAcceptable(q, parseText)
    requires q.replicaIndex.Some? && parseText(q.replicaIndex.value) == Finite(0)
    ensures GetStackLogs(stackName, q, parseText).Success?
    ensures GetStackLogs(stackName, q, parseText).value.options.replicaIndex == Some(0)
  {
  }

  /** A query that supplies no option yields an options object with no keys. */
  lemma EmptyQueryGivesNoOptions(stackName: string, service: Option<string>, parseText: string -> JsNumber)
    ensures GetStackLogs(stackName, LogQuery(service, None, None, None, None, None), parseText)
         == Success(LogsCall(stackName, service, LogOptions(None, None, None, None, None)))
  {
  }

  /** An empty `tail` is falsy and therefore ignored rather than rejected. */
  lemma EmptyTailIgnored(stackName: string, q: LogQuery, parseText: string -> JsNumber)
    requires q.tail == Some("")
    requires ReplicaIndexAcceptable(q, parseText)
    ensures GetStackLogs(stackName, q, parseText).Success?
    ensures GetStackLogs(stackName, q, parseText).value.options.tail.None?
  {
  }

  // ---------------------------------------------------------------------
  // POST /api/stacks/:name/services/:serviceName/bulk-logs

  /** The body of a bulk-logs request. */
  datatype BulkLogBody = BulkLogBody(
    replicaIndexes: BodyValue,
    tail: BodyValue,
    since: BodyValue,
    timestamps: BodyValue,
    maxConcurrent: BodyValue)

  /** The options object handed to the manager; a field is present exactly
      when the handler set that key. */
  datatype BulkLogOptions = BulkLogOptions(
    replicaIndexes: Option<seq<BodyValue>>,
    tail: Option<JsNumber>,
    since: Option<BodyValue>,
    timestamps: Option<BodyValue>,
    maxConcurrent: Option<JsNumber>)

  /** `stackManager.getStackServiceBulkLogs(stackName, serviceName, options)`. */
  datatype BulkLogsCall = BulkLogsCall(stackName: string, serviceName: string, options: BulkLogOptions)

  /** Largest tail the bulk path forwards. */
  const MaxBulkTail: int := 1000

  /** Largest concurrency bound the bulk path forwards. */
  const MaxConcurrency: int := 10

  /** `getStackServiceBulkLogs`: rejects a truthy `replicaIndexes` that is not
      an array, then forwards the truthy or defined fields, with `tail` capped
      at 1000 and `maxConcurrent` at 10 by `Math.min`. `parseText` is
      `parseInt` on the text of a string or an array. */
  function GetStackServiceBulkLogs(
    stackName: string,
    serviceName: string,
    body: BulkLogBody,
    parseText: BodyValue -> JsNumber): (r: Result<BulkLogsCall, Rejection>)
    ensures r.Failure? <==> Truthy(body.replicaIndexes) && !body.replicaIndexes.Arr?
    ensures r.Failure? ==> r.error == Rejection(BadRequest, ReplicaIndexesMessage)
    ensures r.Success? ==> r.value.stackName == stackName && r.value.serviceName == serviceName
    ensures r.Success? ==>
      var opts := r.value.options;
      && (opts.replicaIndexes.Some? <==> body.replicaIndexes.Arr?)
      && (opts.replicaIndexes.Some? ==> body.replicaIndexes == Arr(opts.replicaIndexes.value))
      && (opts.tail.Some? <==> Truthy(body.tail))
      && (opts.tail.Some? ==> opts.tail.value == MinWith(ParseInt(body.tail, parseText), MaxBulkTail))
      && (opts.tail.Some? && opts.tail.value.Finite? ==> opts.tail.value.value <= MaxBulkTail)
      && (opts.since.Some? <==> Truthy(body.since))
      && (opts.since.Some? ==> opts.since.value == body.since)
      && (opts.timestamps.Some? <==> !body.timestamps.Missing?)
      && (opts.timestamps.Some? ==> opts.timestamps.value == body.timestamps)
      && (opts.maxConcurrent.Some? <==> Truthy(body.maxConcurrent))
      && (opts.maxConcurrent.Some? ==>
            opts.maxConcurrent.value == MinWith(ParseInt(body.maxConcurrent, parseText), MaxConcurrency))
      && (opts.maxConcurrent.Some? && opts.maxConcurrent.value.Finite? ==>
            opts.maxConcurrent.value.value <= MaxConcurrency)
  {
    if Truthy(body.replicaIndexes) && !body.replicaIndexes.Arr? then
      Failure(Rejection(BadRequest, ReplicaIndexesMessage))
    else
      var options := BulkLogOptions(
        if body.replicaIndexes.Arr? then Some(body.replicaIndexes.items) else None,
        if Truthy(body.tail) then Some(MinWith(ParseInt(body.tail, parseText), MaxBulkTail)) else None,
        if Truthy(body.since) then Some(body.since) else None,
        if body.timestamps.Missing? then None else Some(body.timestamps),
        if Truthy(body.maxConcurrent) then Some(MinWith(ParseInt(body.maxConcurrent, parseText), MaxConcurrency)) else None);
      Success(BulkLogsCall(stackName, serviceName, options))
  }

  /** A non-zero numeric tail is forwarded as the smaller of itself and 1000,
      whatever the other fields hold. */
  lemma BulkTailClamped(stackName: string, serviceName: string, body: BulkLogBody, parseText: BodyValue -> JsNumber)
    requires !Truthy(body.replicaIndexes) || body.replicaIndexes.Arr?
    requires body.tail.Num? && body.tail.n != 0
    ensures GetStackServiceBulkLogs(stackName, serviceName, body, parseText).value.options.tail
         == Some(Finite(if body.tail.n <= MaxBulkTail then body.tail.n else MaxBulkTail))
  {
  }

  /** A non-zero numeric concurrency bound is forwarded as the smaller of
      itself and 10, whatever the other fields hold. */
  lemma BulkConcurrencyClamped(stackName: string, serviceName: string, body: BulkLogBody, parseText: BodyValue -> JsNumber)
    requires !Truthy(body.replicaIndexes) || body.replicaIndexes.Arr?
    requires body.maxConcurrent.Num? && body.maxConcurrent.n != 0
    ensures GetStackServiceBulkLogs(stackName, serviceName, body, parseText).value.options.maxConcurrent
         == Some(Finite(if body.maxConcurrent.n <= MaxConcurrency then body.maxConcurrent.n else MaxConcurrency))
  {
  }

  /** Asking for 20 concurrent fetches forwards a bound of 10. */
  lemma ConcurrencyTwentyBecomesTen(stackName: string, serviceName: string, indexes: seq<BodyValue>, parseText: BodyValue -> JsNumber)
    ensures
      GetStackServiceBulkLogs(stackName, serviceName, BulkLogBody(Arr(indexes), Missing, Missing, Missing, Num(20)), parseText)
      == Success(BulkLogsCall(stackName, serviceName, BulkLogOptions(Some(indexes), None, None, None, Some(Finite(10)))))
  {
  }

  // ---------------------------------------------------------------------
  // POST /api/stacks/:name/services/:serviceName/scale

  /** `stackManager.scaleStackService(stackName, serviceName, replicas)`. */
  datatype ScaleCall = ScaleCall(stackName: string, serviceName: string, replicas: BodyValue)

  /** `scaleStackService`: rejects `replicas` when it is falsy (missing, null,
      false, 0, empty text) or when it compares below 0; otherwise forwards it
      unchanged. `textToNumber` is `Number` on the text of a string or an
      array. */
  function ScaleStackService(
    stackName: string,
    serviceName: string,
    replicas: BodyValue,
    textToNumber: BodyValue -> JsNumber): (r: Result<ScaleCall, Rejection>)
    ensures r.Failure? ==> r.error == Rejection(BadRequest, ReplicasMessage)
    ensures r.Success? ==> r.value == ScaleCall(stackName, serviceName, replicas)
    ensures !Truthy(replicas) ==> r.Failure?
    ensures replicas.Num? ==> (r.Success? <==> replicas.n > 0)
    ensures replicas.Missing? || replicas.Null? ==> r.Failure?
    ensures r.Success? <==> Truthy(replicas) && !LessThan(ToNumber(replicas, textToNumber), 0)
  {
    if !Truthy(replicas) || LessThan(ToNumber(replicas, textToNumber), 0) then
      Failure(Rejection(BadRequest, ReplicasMessage))
    else
      Success(ScaleCall(stackName, serviceName, replicas))
  }

  /** The guard compares with `<`, and every comparison with NaN is false,
      so a non-empty text that does not read as a number passes it. */
  lemma ScaleAdmitsNonNumericText(stackName: string, serviceName: string, s: string, textToNumber: BodyValue -> JsNumber)
    requires s != "" && textToNumber(Str(s)) == NaN
    ensures ScaleStackService(stackName, serviceName, Str(s), textToNumber).Success?
  {
  }

  /** Values that are truthy and do not compare below 0 are forwarded even
      though they are not counts: `true` reads as 1, an object as NaN and an
      empty array as 0. */
  lemma ScaleForwardsNonCounts(
    stackName: string,
    serviceName: string,
    fields: map<string, BodyValue>,
    textToNumber: BodyValue -> JsNumber)
    requires textToNumber(Arr([])) == Finite(0)
    ensures ScaleStackService(stackName, serviceName, Bool(true), textToNumber).Success?
    ensures ScaleStackService(stackName, serviceName, Obj(fields), textToNumber).Success?
    ensures ScaleStackService(stackName, serviceName, Arr([]), textToNumber).Success?
  {
  }
}

=== FILE: wrappers.dfy ===
/** An optional value and a success-or-error result, shared by the model. */
module Wrappers {

  /** A value that may be absent (a JavaScript `undefined`, a missing key). */
  datatype Option<+T> = None | Some(value: T) {

    /** The carried value, or `default` when absent. */
    function GetOr(default: T): T {
      match this
      case Some(v) => v
      case None => default
    }
  }

  /** Either the value an operation produced or the error it raised. */
  datatype Result<+R, +E> = Success(value: R) | Failure(error: E)
}
